=== FILE: README.md ===
# controllerimage: a Dafny model of the share code, label wrapping and annotation rules

controllerimage draws a game-controller diagram on a canvas. Each of the 19
controls can carry a text label. The page's form holds a colour, a scale
and one label per control. Everything lives in `script.js`. This project
models its three pieces of pure logic and proves properties of them.

- **The share code.** `updateCode` turns the form into a text record:
  `color,scale,label_0,…,label_18` in `INPUT_ORDER` order, with commas inside
  labels escaped to U+0001 and the trailing commas of the label part
  trimmed. The record is then compressed and base64-encoded. `loadFromCode`
  undoes the transport, pads the record back to twenty commas, splits it and
  writes the fields back into the form. Modules `Text`, `Controls`, `Form`
  and `Codec`.
- **Word wrapping.** `getLines` breaks a label greedily into lines. A line
  of several words is narrower than the width limit, and a word too wide
  for it gets a line of its own. Module `Wrap`; the canvas's `measureText` becomes a
  parameter `measure`.
- **The frame.** `main` draws the controller and then, for each control
  whose label is non-empty, a highlight, a leader arrow and the label. The
  dpad and the two sticks also get a shared image, drawn when any of their
  controls is labelled. Module `Layout` holds every control's layout data,
  in the source's controller-relative units. Module `Render` turns a form
  into the sequence of items drawn, in order.

Strings are `seq<char>`, and the JavaScript string methods used are modelled
with their own semantics in `Text`: `split` (an empty string splits into one
empty piece), `join`, `repeat`, `replaceAll`, the comma count taken with
`matchAll` and the trailing-comma regex.
`pako` with `btoa`/`atob` is an opaque `Transport` with `pack` and a
failing `unpack`.

`updateCode` escapes a comma in a label to U+0001 (`script.js:317`), but
`loadFromCode` never turns U+0001 back into a comma (`script.js:339`). So a
label such as `Reload, fast` comes back as `Reload` U+0001 ` fast`.
`LoadFromCode` follows the code. The fix, and the exact
round trip it brings, is modelled beside it; see "## Findings".

## Model

| member | source | states |
|---|---|---|
| Text.CountBounds | script.js:333 | the `matchAll` count is at most the length, and is zero exactly when the character does not occur |
| Text.CountAppend | script.js:333 | the comma count of a concatenation is the sum of the counts of its parts |
| Text.JoinCount | script.js:317 | `join` of separator-free pieces puts exactly one separator between neighbours and no other |
| Text.Split | script.js:335 | `split` on one character yields one more piece than there are separators, and no piece contains the separator |
| Text.JoinSplit | script.js:335 | joining the pieces of a split with the same separator gives back the text exactly |
| Text.SplitJoin | script.js:335 | splitting the join of separator-free pieces gives back exactly those pieces |
| Text.Repeat | script.js:334 | `",".repeat(n)` is n commas and nothing else |
| Text.ReplaceAll | script.js:317 | `replaceAll` of one character keeps the length, changes exactly the matching positions, and leaves none of the replaced character behind |
| Text.TrimEnd | script.js:317 | `replaceAll(/,*$/g, "")` yields a prefix not ending in a comma, and only commas were cut |
| Text.TrimEndRestore | script.js:317 | appending the right number of commas after trimming restores the original text |
| Controls.Position | script.js:6-8 | every control has a place in INPUT_ORDER, and that place holds the control |
| Controls.InputOrderDistinct | script.js:6-8 | INPUT_ORDER names nineteen controls with pairwise distinct ids |
| Controls.IdInjective | script.js:6-8 | distinct controls have distinct input ids |
| Codec.Escape | script.js:317 | an escaped label keeps its length and every character except commas, which become U+0001; no comma is left |
| Codec.EscapedLabel | script.js:317 | escaping the form changes only the labels, each to its own escaped text |
| Codec.BuildRecord | script.js:316-317 | the record is the full comma join of colour, scale and escaped labels minus only trailing commas; the `color,scale,` prefix always survives, and the record ends in a comma only when nothing follows that prefix, so the label part's trailing commas are all removed |
| Codec.FullRecord | script.js:316-317 | joining all fields equals the colour, the scale and the label join with separators between them |
| Codec.Pad | script.js:333-334 | more than twenty commas is the RangeError; otherwise commas are appended until exactly twenty |
| Codec.ParseRecord | script.js:333-339 | a decoded text fails exactly when padding fails; otherwise it yields 19 labels and comma-free fields whose join is the padded text |
| Codec.PadAppend | script.js:333-334 | commas appended within the allowed twenty pad to the same string as the text without them |
| Codec.PaddingIrrelevant | script.js:333-335 | trailing commas within the allowed twenty do not change what a record parses to |
| Codec.ParseJoin | script.js:335-339 | field i+2 of the join of comma-free fields is read back as label i, and colour and scale as fields 0 and 1 |
| Codec.TrimmedParsesLikeFull | script.js:316-335 | a trimmed record parses the same as the untrimmed join of its fields |
| Codec.RoundTrip | script.js:316-339 | with comma-free colour and scale, parsing a built record restores colour, scale and each label with commas turned into U+0001 |
| Codec.ReparseIsIdentity | script.js:316-339 | a second encode and decode of anything decoded changes nothing |
| Codec.CommaInColorNotRestored | script.js:316-339 | the colour is not escaped, so a colour with a comma never comes back intact |
| Codec.UpdateCode | script.js:315-320 | the page keeps the form, and with a comma-free colour and scale and a transport that carries the record, the code shown is non-empty and unpacks to a record that parses back to the escaped form |
| Codec.LoadFromCode | script.js:325-342 | an empty code or a failing transport changes nothing; more than twenty commas is an error; otherwise the form becomes the parsed record and the shown code is re-encoded from it |
| Codec.ShareRoundTrip | script.js:315-342 | loading a shared code on any page shows the escaped form and its code |
| Codec.ReloadIsIdentity | script.js:325-342 | loading the code a load has just displayed reproduces the same page |
| Codec.LabelWithCommaNotRestored | script.js:316-339 | as written, with a comma-free colour and scale, any label holding a comma decodes to a different label |
| Codec.CommaLabelNotRestored | script.js:339 | label X typed as `Reload, fast` is decoded as `Reload` U+0001 ` fast` |
| Codec.Unescape | script.js:339 | restoring leaves no U+0001 behind, and re-escaping a comma-free field gives it back |
| Codec.UnescapeEscape | script.js:339 | restoring undoes escaping for text without U+0001 |
| Codec.ParseRecordRestoring | script.js:339 | the corrected decoder fails on the same texts, and re-escaping its labels gives the as-written result |
| Codec.RestoringRoundTrip | script.js:316-339 | with the correction, labels with commas come back exactly |
| Codec.LoadFromCodeRestoring | script.js:325-342 | the corrected load fails exactly when the as-written one does; on success its labels hold no U+0001, its form escapes to the as-written form, and the code shown is re-encoded from the form; an empty or undecodable code leaves the page as it is |
| Codec.ShareRoundTripRestoring | script.js:315-342 | with the correction, loading a shared code reproduces the form exactly |
| Wrap.GetLines | script.js:101-116 | at least one line; the lines joined by single spaces are the text; a line of several words is narrower than the limit; every break was forced by the next word |
| Wrap.PackRestPacked | script.js:105-113 | the loop over the remaining words keeps the lines joining to the words seen, the width bound and the forced breaks |
| Wrap.PackStep | script.js:106-112 | one iteration keeps those invariants |
| Wrap.ExtendLines | script.js:114 | pushing the last line keeps the width bound and the forced breaks |
| Layout.AnnotationOf | script.js:141-310 | every leader has at least two points and a distinct head segment, starts at the controller's left or right edge, and has its label just outside; right-side labels are left-aligned and limited by the room to the canvas's right edge (share uses the keyword "share"), left-side ones the mirror |
| Layout.LeadersRunInward | script.js:141-310 | every leader leaves the edge horizontally and points inside the controller |
| Layout.LeadersRectilinear | script.js:141-310 | every leader runs in horizontal and vertical segments only |
| Layout.OverlaysLoaded | script.js:10-28 | every overlay image a control uses is among the loaded images |
| Layout.Base | script.js:174-267 | each group's shared image is one of the loaded images |
| Layout.GroupOfMembers | script.js:174-267 | a control is in a group's member list exactly when it belongs to that group |
| Layout.StickOverlaysOnBase | script.js:246-283 | a stick's axis overlays share the stick image's centre and scale |
| Layout.DpadGlowsOnPad | script.js:174-213 | each dpad glow is a unit axis direction, offset from the pad's centre by 0.09 across and 0.16 down per unit |
| Render.StepItemsIff | script.js:141-310 | one `if` of `main` draws something exactly when its condition holds (the control's label is non-empty, or some control of the group is labelled), and only items the form justifies |
| Render.DrawItems | script.js:132-311 | the frame starts with the controller image |
| Render.AnnotateStep | script.js:141-310 | each control's `if` sits at the given position in `main`'s sequence of steps |
| Render.BaseStep | script.js:174-267 | each group's shared image has its own `if`, placed before those of its members |
| Render.ItemsOfSound | script.js:141-310 | every item any run of the `if`s draws is justified by the form |
| Render.DrawItemsSound | script.js:136-310 | nothing is drawn unless justified: annotations only for labelled controls, with their own layout, label and the form's colour; shared images only for groups with a labelled member |
| Render.LeadersDrawable | script.js:77-99 | every arrow handed to `drawArrow` has the two points it reads at the head |
| Render.LabelledIsAnnotated | script.js:141-310 | a labelled control gets its highlight, its leader and its caption |
| Render.AnnotatedIff | script.js:141-310 | a control's leader, highlight and caption are drawn if and only if its label is non-empty |
| Render.UnlabelledDrawsNothing | script.js:141-310 | no item of any kind is drawn for an unlabelled control |
| Render.GroupBaseIff | script.js:174-267 | the dpad or stick image is drawn if and only if one of its controls is labelled |
| Render.StepsInOrder | script.js:141-310 | the items of an earlier `if` are drawn before those of a later one |
| Render.BaseBeforeMark | script.js:174-283 | a group's image precedes any later member's highlight |
| Render.MarkAboveBase | script.js:174-283 | a labelled dpad or stick control's highlight is drawn after, so above, its group's shared image |
| Render.SharedCodeDrawsSameControls | script.js:315-342 | after a shared code is loaded, the same controls are annotated, in the same colour, with each label's commas turned into U+0001 |

## Left out

- The DOM: reading and writing input values, `innerText`, and the input listeners that call `updateCode`. The model takes and returns the form's values directly.
- `pako.deflate`/`inflate`, `btoa`/`atob` and the byte to code-point mapping. They are foreign code; `Transport` stands in for them, and `Restores` is what a round trip assumes of it.
- Codec.LoadFromCode: `+parts[1]` turns the scale field into a number before it is written back, so a field such as `040` shows as `40`. The model keeps the field text, because float conversion is left out. `main`'s division of the scale by 100 into `controllerScale` is canvas arithmetic and is left out too.
- Codec.LoadFromCode: the browser's own cleaning of values written into typed inputs (colour or number) is not modelled, because the page's markup is not part of this model. The form receives the field texts as split.
- All canvas arithmetic: pixel positions, image sizes, the dpad gradient, the arrow head's angles, and the 12-pixel line spacing in `drawText`. Layout data stays in controller units.
- What the canvas does with the unknown `textAlign` keyword "share". It is kept as `Unrecognised("share")`.
- Image loading, the `allLoaded` gate and `setInterval(main, 1)`. These are timers and asynchronous I/O; `DrawItems` is the frame once the images have loaded.
- The clipboard `copy` helper.
- Wrap.GetLines: `maxWidth` is always a number here. `drawText` would pass `undefined` when called without a width function, which `main` never does.
- `measureText` is an abstract `measure` returning a real, with no properties assumed.
- Controls.InputOrderDistinct: INPUT_ORDER is written as the list of its controls. The model does not derive it by splitting the space-separated literal.

## Findings

| source | as written | input that shows it | evidently intended | confidence | as-written member | corrected member |
|---|---|---|---|---|---|---|
| script.js:339 | the decoder writes each label field as split, so the U+0001 that `updateCode` put in place of a comma stays in the label | label X is `Reload, fast`; after sharing and loading it reads `Reload` U+0001 ` fast` | U+0001 turned back into a comma, so every label round-trips | not executed | Codec.LabelWithCommaNotRestored | Codec.ParseRecordRestoring |

`Codec.RestoringRoundTrip` and `Codec.ShareRoundTripRestoring` prove the
exact round trip for the corrected decoder. Both assume a comma-free
colour and scale, and labels free of U+0001.
`Codec.LabelWithCommaNotRestored` assumes only a comma-free colour and
scale. `Codec.CommaLabelNotRestored` is the concrete instance in the
table, a closed example with no assumptions. `Codec.LoadFromCode`, which
the render lemmas use, keeps the behaviour as written.

=== FILE: codec.dfy ===
/**
  The share code. `updateCode` joins the colour, the scale and the
  nineteen labels into one comma-separated record. Commas inside a label
  become U+0001 first. Trailing separators of the label part are trimmed.
  The record is then compressed and base64-encoded. `loadFromCode` undoes
  the transport, pads the record back to twenty separators, splits it, and
  writes the fields into the form.
 */
module Codec {
  import opened Wrappers
  import opened Text
  import opened Controls
  import opened Form

  /** What a label's commas become on encode: the string "\1", U+0001. */
  const Placeholder: char := '\U{1}'

  /** Separators in a complete record: colour, scale, then one field per control. */
  const Separators: nat := |InputOrder| + 1

  /** The only error that escapes `loadFromCode`: `",".repeat` given a negative count throws a RangeError. */
  datatype LoadError = NegativeRepeat

  /** A label as encoded: every comma replaced by the placeholder. */
  function Escape(s: String): (r: String)
    ensures ',' !in r
    ensures |r| == |s|
    ensures forall i :: 0 <= i < |s| && s[i] != ',' ==> r[i] == s[i]
    ensures forall i :: 0 <= i < |s| && s[i] == ',' ==> r[i] == Placeholder
  {
    ReplaceAll(s, ',', Placeholder)
  }

  /** The form with every label escaped. */
  function Escaped(st: State): State
  {
    st.(labels := seq(|st.labels|, i requires 0 <= i < |st.labels| => Escape(st.labels[i])))
  }

  /** Escaping keeps the colour and the scale and escapes each control's own label. */
  lemma EscapedLabel(st: State, c: Control)
    requires Valid(st)
    ensures Valid(Escaped(st)) && Escaped(st).color == st.color && Escaped(st).scale == st.scale
    ensures Label(Escaped(st), c) == Escape(Label(st, c))
  {
  }

  /** The form's fields in wire order: colour, scale, then the labels in INPUT_ORDER. */
  function Columns(st: State): seq<String>
  {
    [st.color, st.scale] + st.labels
  }

  /** No field of the form contains the separator. */
  predicate CommaFree(st: State)
  {
    forall i :: 0 <= i < |Columns(st)| ==> ',' !in Columns(st)[i]
  }

  /**
    The text `updateCode` compresses. It is the join of the escaped fields
    with some trailing separators removed. The trimming never reaches into
    the colour and scale, because it is applied to the label part alone.
   */
  function BuildRecord(st: State): (r: String)
    requires Valid(st)
    ensures var full := Join(Columns(Escaped(st)), ',');
      && r <= full
      && |st.color| + |st.scale| + 2 <= |r|
      && forall i :: |r| <= i < |full| ==> full[i] == ','
    ensures |r| == |st.color| + |st.scale| + 2 || r[|r| - 1] != ','
  {
    var labelPart := Join(Escaped(st).labels, ',');
    FullRecord(Escaped(st));
    st.color + "," + st.scale + "," + TrimEnd(labelPart, ',')
  }

  lemma FullRecord(st: State)
    requires Valid(st)
    ensures Join(Columns(st), ',') == st.color + "," + st.scale + "," + Join(st.labels, ',')
  {
    JoinCons(st.scale, st.labels, ',');
    JoinCons(st.color, [st.scale] + st.labels, ',');
    assert Columns(st) == [st.color] + ([st.scale] + st.labels);
  }

  /**
    The padding step of `loadFromCode`: with k commas in the text, k > 20
    makes `",".repeat(20 - k)` throw; otherwise the text gets 20 - k more
    commas, so the result always holds exactly twenty.
   */
  function Pad(text: String): (r: Result<String, LoadError>)
    ensures r.Failure? <==> Count(text, ',') > Separators
    ensures r.Success? ==> text <= r.value && Count(r.value, ',') == Separators
    ensures r.Success? ==> forall i :: |text| <= i < |r.value| ==> r.value[i] == ','
  {
    var k := Count(text, ',');
    if k > Separators then Failure(NegativeRepeat)
    else
      var added := Repeat(',', Separators - k);
      CountAppend(text, added, ',');
      Success(text + added)
  }

  /**
    The field split of `loadFromCode`: the padded text is split into exactly
    twenty-one fields, none holding a comma, that join back to it.
   */
  function ParseRecord(text: String): (r: Result<State, LoadError>)
    ensures r.Failure? <==> Pad(text).Failure?
    ensures r.Success? ==>
      && Valid(r.value)
      && CommaFree(r.value)
      && Join(Columns(r.value), ',') == Pad(text).value
  {
    match Pad(text)
    case Failure(e) => Failure(e)
    case Success(padded) =>
      var parts := Split(padded, ',');
      JoinSplit(padded, ',');
      var st := State(parts[0], parts[1], parts[2..]);
      assert Columns(st) == parts;
      Success(st)
  }

  /** Appending separators that stay within the twenty allowed does not change what a record parses to. */
  lemma PaddingIrrelevant(text: String, n: nat)
    requires Count(text, ',') + n <= Separators
    ensures ParseRecord(text + Repeat(',', n)) == ParseRecord(text)
  {
    PadAppend(text, n);
    SamePadSameParse(text + Repeat(',', n), text);
  }

  lemma PadAppend(text: String, n: nat)
    requires Count(text, ',') + n <= Separators
    ensures Pad(text + Repeat(',', n)) == Pad(text)
  {
    var m: nat := Separators - Count(text, ',') - n;
    CountAfterCommas(text, n);
    AppendRepeats(text, n, m);
    PadValue(text + Repeat(',', n), m);
    PadValue(text, n + m);
  }

  lemma PadValue(text: String, missing: nat)
    requires Count(text, ',') + missing == Separators
    ensures Pad(text) == Success(text + Repeat(',', missing))
  {
  }

  lemma CountAfterCommas(text: String, n: nat)
    ensures Count(text + Repeat(',', n), ',') == Count(text, ',') + n
  {
    CountAppend(text, Repeat(',', n), ',');
  }

  lemma AppendRepeats(text: String, n: nat, m: nat)
    ensures text + Repeat(',', n) + Repeat(',', m) == text + Repeat(',', n + m)
  {
  }

  lemma SamePadSameParse(a: String, b: String)
    requires Pad(a) == Pad(b)
    ensures ParseRecord(a) == ParseRecord(b)
  {
  }

  /** A join of twenty-one comma-free fields parses back into exactly those fields. */
  lemma ParseJoin(st: State)
    requires Valid(st) && CommaFree(st)
    ensures ParseRecord(Join(Columns(st), ',')) == Success(st)
  {
    var full := Join(Columns(st), ',');
    SplitJoin(Columns(st), ',');
    assert full + Repeat(',', 0) == full;
    var parts := Split(full, ',');
    assert parts == Columns(st);
  }

  /** Escaping removes every comma from the labels, so the escaped form is comma-free when colour and scale are. */
  lemma EscapedCommaFree(st: State)
    requires ',' !in st.color && ',' !in st.scale
    ensures CommaFree(Escaped(st))
  {
  }

  /**
    Trimming is cosmetic: the record `updateCode` builds parses the same as
    the untrimmed join of its escaped fields.
   */
  lemma TrimmedParsesLikeFull(st: State)
    requires Valid(st) && ',' !in st.color && ',' !in st.scale
    ensures ParseRecord(BuildRecord(st)) == ParseRecord(Join(Columns(Escaped(st)), ','))
  {
    var full := Join(Columns(Escaped(st)), ',');
    var rec := BuildRecord(st);
    var n := |full| - |rec|;
    assert full == rec + Repeat(',', n) by {
      assert full == rec + full[|rec|..];
    }
    assert Count(full, ',') == Separators by {
      EscapedCommaFree(st);
      SplitJoin(Columns(Escaped(st)), ',');
    }
    CountAppend(rec, Repeat(',', n), ',');
    PaddingIrrelevant(rec, n);
  }

  /**
    The round trip: with colour and scale free of commas, parsing a built
    record gives back the colour, the scale and every label with its commas
    turned into the placeholder.
   */
  lemma RoundTrip(st: State)
    requires Valid(st) && ',' !in st.color && ',' !in st.scale
    ensures ParseRecord(BuildRecord(st)) == Success(Escaped(st))
  {
    TrimmedParsesLikeFull(st);
    EscapedCommaFree(st);
    ParseJoin(Escaped(st));
  }

  /** Whatever parses is a fixed point: building its record and parsing again changes nothing. */
  lemma ReparseIsIdentity(text: String)
    requires ParseRecord(text).Success?
    ensures ParseRecord(BuildRecord(ParseRecord(text).value)) == ParseRecord(text)
  {
    var st := ParseRecord(text).value;
    assert Columns(st)[0] == st.color && Columns(st)[1] == st.scale;
    forall i | 0 <= i < |st.labels|
      ensures Escape(st.labels[i]) == st.labels[i]
    {
      assert Columns(st)[i + 2] == st.labels[i];
    }
    assert Escaped(st) == st;
    RoundTrip(st);
  }

  /**
    The colour is not escaped. A colour holding a comma never survives the
    round trip: either the record has too many separators and the decoder
    throws, or the parsed colour stops short of the comma.
   */
  lemma CommaInColorNotRestored(st: State)
    requires Valid(st) && ',' in st.color
    ensures ParseRecord(BuildRecord(st)).Success? ==> ParseRecord(BuildRecord(st)).value.color != st.color
  {
  }

  /**
    The decoder as written never turns U+0001 back into a comma, so no
    label holding a comma survives an encode and decode.
   */
  lemma LabelWithCommaNotRestored(st: State, c: Control)
    requires Valid(st) && ',' !in st.color && ',' !in st.scale
    requires ',' in Label(st, c)
    ensures ParseRecord(BuildRecord(st)).Success?
    ensures Label(ParseRecord(BuildRecord(st)).value, c) != Label(st, c)
  {
    RoundTrip(st);
    EscapedLabel(st, c);
  }

  /** The transport of `updateCode`/`loadFromCode`: deflate then base64, and base64 then inflate, failing as `None`. */
  datatype Transport = Transport(pack: String -> String, unpack: String -> Option<String>)

  /** The transport carries this record intact and as a non-empty code. */
  predicate Restores(t: Transport, text: String)
  {
    t.pack(text) != [] && t.unpack(t.pack(text)) == Some(text)
  }

  /** The form together with the share code displayed beside it. */
  datatype Page = Page(form: State, code: String)

  /**
    `updateCode`: the displayed code follows the form. With a colour and a
    scale free of commas and a transport that carries the record, the code
    unpacks to a record that parses back to the escaped form.
   */
  function UpdateCode(form: State, t: Transport): (p: Page)
    requires Valid(form)
    ensures p.form == form
    ensures ',' !in form.color && ',' !in form.scale && Restores(t, BuildRecord(form)) ==>
      && p.code != []
      && t.unpack(p.code).Some?
      && ParseRecord(t.unpack(p.code).value) == Success(Escaped(form))
  {
    if ',' !in form.color && ',' !in form.scale then
      RoundTrip(form);
      Page(form, t.pack(BuildRecord(form)))
    else
      Page(form, t.pack(BuildRecord(form)))
  }

  /**
    `loadFromCode`. An empty code, or one the transport cannot undo, leaves
    the page as it is. More than twenty commas in the unpacked text is the
    RangeError that escapes. Otherwise the form becomes the parsed record,
    and the code shown is the one re-encoded from it.
   */
  function LoadFromCode(page: Page, code: String, t: Transport): (r: Result<Page, LoadError>)
    ensures code == [] ==> r == Success(page)
    ensures code != [] && t.unpack(code).None? ==> r == Success(page)
    ensures r.Failure? <==> code != [] && t.unpack(code).Some? && Count(t.unpack(code).value, ',') > Separators
    ensures code != [] && t.unpack(code).Some? && r.Success? ==>
      && Valid(r.value.form)
      && ParseRecord(t.unpack(code).value) == Success(r.value.form)
      && r.value.code == t.pack(BuildRecord(r.value.form))
  {
    if code == [] then Success(page)
    else match t.unpack(code)
      case None => Success(page)
      case Some(text) =>
        match ParseRecord(text)
        case Failure(e) => Failure(e)
        case Success(form) => Success(UpdateCode(form, t))
  }

  /**
    Sharing a form and loading the code elsewhere: with a faithful
    transport, any page ends up showing the escaped form and its code.
   */
  lemma ShareRoundTrip(page: Page, st: State, t: Transport)
    requires Valid(st) && ',' !in st.color && ',' !in st.scale
    requires Restores(t, BuildRecord(st))
    ensures LoadFromCode(page, UpdateCode(st, t).code, t) == Success(UpdateCode(Escaped(st), t))
  {
    RoundTrip(st);
  }

  /** Loading the code a load has just displayed reproduces the same page. */
  lemma ReloadIsIdentity(page: Page, code: String, t: Transport)
    requires code != [] && t.unpack(code).Some?
    requires LoadFromCode(page, code, t).Success?
    requires Restores(t, BuildRecord(LoadFromCode(page, code, t).value.form))
    ensures var loaded := LoadFromCode(page, code, t).value; LoadFromCode(loaded, loaded.code, t) == Success(loaded)
  {
    ReparseIsIdentity(t.unpack(code).value);
  }

  // The decoder as it ought to be: the placeholder turned back into commas.

  /** A decoded field with the placeholder restored to a comma. */
  function Unescape(field: String): (r: String)
    ensures Placeholder !in r
    ensures ',' !in field ==> Escape(r) == field
    ensures Placeholder !in field ==> r == field
  {
    ReplaceAll(field, Placeholder, ',')
  }

  /**
    `ParseRecord` followed by restoring every label's commas. It fails on
    the same texts, and re-escaping its labels gives the as-written result.
   */
  function ParseRecordRestoring(text: String): (r: Result<State, LoadError>)
    ensures r.Failure? <==> ParseRecord(text).Failure?
    ensures r.Success? ==>
      && Valid(r.value)
      && (forall i :: 0 <= i < |r.value.labels| ==> Placeholder !in r.value.labels[i])
      && Escaped(r.value) == ParseRecord(text).value
  {
    match ParseRecord(text)
    case Failure(e) => Failure(e)
    case Success(st) =>
      var restored := st.(labels := seq(|st.labels|, i requires 0 <= i < |st.labels| => Unescape(st.labels[i])));
      assert forall i :: 0 <= i < |st.labels| ==> Columns(st)[i + 2] == st.labels[i];
      assert Escaped(restored) == st;
      Success(restored)
  }

  /**
    With the placeholder restored the round trip is exact: every label,
    commas included, comes back, as long as no label holds the placeholder.
   */
  lemma RestoringRoundTrip(st: State)
    requires Valid(st) && ',' !in st.color && ',' !in st.scale
    requires forall i :: 0 <= i < |st.labels| ==> Placeholder !in st.labels[i]
    ensures ParseRecordRestoring(BuildRecord(st)) == Success(st)
  {
    RoundTrip(st);
    var parsed := ParseRecord(BuildRecord(st)).value;
    var restored := ParseRecordRestoring(BuildRecord(st)).value;
    assert restored == parsed.(labels := seq(|parsed.labels|, i requires 0 <= i < |parsed.labels| => Unescape(parsed.labels[i])));
    forall i | 0 <= i < |st.labels|
      ensures restored.labels[i] == st.labels[i]
    {
      assert parsed.labels[i] == Escape(st.labels[i]);
      UnescapeEscape(st.labels[i]);
    }
    assert restored.labels == st.labels;
  }

  /** Restoring undoes escaping on text that never held the placeholder. */
  lemma UnescapeEscape(s: String)
    requires Placeholder !in s
    ensures Unescape(Escape(s)) == s
  {
  }

  /** `loadFromCode` with the decoder restoring commas; the transport and the padding are unchanged. */
  function LoadFromCodeRestoring(page: Page, code: String, t: Transport): (r: Result<Page, LoadError>)
    ensures r.Failure? <==> LoadFromCode(page, code, t).Failure?
    ensures code != [] && t.unpack(code).Some? && r.Success? ==>
      && Valid(r.value.form)
      && Escaped(r.value.form) == LoadFromCode(page, code, t).value.form
      && (forall i :: 0 <= i < |r.value.form.labels| ==> Placeholder !in r.value.form.labels[i])
      && r.value.code == t.pack(BuildRecord(r.value.form))
    ensures (code == [] || t.unpack(code).None?) ==> r == Success(page)
  {
    if code == [] then Success(page)
    else match t.unpack(code)
      case None => Success(page)
      case Some(text) =>
        match ParseRecordRestoring(text)
        case Failure(e) => Failure(e)
        case Success(form) => Success(UpdateCode(form, t))
  }

  /**
    The round trip the share code is meant to have: loading a shared code
    reproduces the form exactly, labels with commas included.
   */
  lemma ShareRoundTripRestoring(page: Page, st: State, t: Transport)
    requires Valid(st) && ',' !in st.color && ',' !in st.scale
    requires forall i :: 0 <= i < |st.labels| ==> Placeholder !in st.labels[i]
    requires Restores(t, BuildRecord(st))
    ensures LoadFromCodeRestoring(page, UpdateCode(st, t).code, t) == Success(UpdateCode(st, t))
  {
    RestoringRoundTrip(st);
  }

  /** A form with one label holding a comma: red, 40 percent, A "Jump", X "Reload, fast". */
  function CommaExample(): (st: State)
    ensures Valid(st) && ',' !in st.color && ',' !in st.scale
    ensures Label(st, X) == "Reload, fast"
  {
    State("#ff0000", "40", ["Jump", "", "Reload, fast"] + seq(16, _ => ""))
  }

  /**
    As written, the decoder does not restore the comma: label X comes back
    holding U+0001 where the user typed a comma.
   */
  lemma CommaLabelNotRestored()
    ensures ParseRecord(BuildRecord(CommaExample())) == Success(Escaped(CommaExample()))
    ensures Label(Escaped(CommaExample()), X) == "Reload\U{1} fast"
    ensures Label(CommaExample(), X) == "Reload, fast"
  {
    RoundTrip(CommaExample());
    ExampleLabelEscaped();
  }

  lemma ExampleLabelEscaped()
    ensures Label(Escaped(CommaExample()), X) == "Reload\U{1} fast"
  {
    EscapedLabel(CommaExample(), X);
    EscapeReloadFast();
  }

  lemma EscapeReloadFast()
    ensures Escape("Reload, fast") == "Reload\U{1} fast"
  {
    ReloadFastParts();
    EscapeOneComma("Reload", " fast");
  }

  lemma ReloadFastParts()
    ensures "Reload, fast" == "Reload" + [','] + " fast"
    ensures ',' !in "Reload" && ',' !in " fast"
    ensures "Reload" + [Placeholder] + " fast" == "Reload\U{1} fast"
  {
  }

  lemma EscapeOneComma(a: String, b: String)
    requires ',' !in a && ',' !in b
    ensures Escape(a + [','] + b) == a + [Placeholder] + b
  {
  }
}

=== FILE: controls.dfy ===
/**
  The control registry: the nineteen controls of the diagram, their form
  ids, and INPUT_ORDER, the fixed order in which their labels travel in a
  share code.
 */
module Controls {
  import opened Text

  datatype Control =
    | A | B | X | Y
    | DpadUp | DpadDown | DpadLeft | DpadRight
    | LB | RB | LT | RT
    | LeftStickVertical | LeftStickHorizontal
    | RightStickVertical | RightStickHorizontal
    | View | Menu | Share

  /** The id of the control's text input, which is also its name in INPUT_ORDER. */
  function Id(c: Control): String
  {
    match c
    case A => "a"
    case B => "b"
    case X => "x"
    case Y => "y"
    case DpadUp => "dpad_up"
    case DpadDown => "dpad_down"
    case DpadLeft => "dpad_left"
    case DpadRight => "dpad_right"
    case LB => "lb"
    case RB => "rb"
    case LT => "lt"
    case RT => "rt"
    case LeftStickVertical => "left_stick_vertical"
    case LeftStickHorizontal => "left_stick_horizontal"
    case RightStickVertical => "right_stick_vertical"
    case RightStickHorizontal => "right_stick_horizontal"
    case View => "view"
    case Menu => "menu"
    case Share => "share"
  }

  /** INPUT_ORDER: the wire order of the label fields. */
  const InputOrder: seq<Control> := [
    A, B, X, Y, DpadUp, DpadDown, DpadLeft, DpadRight, LB, RB, LT, RT,
    LeftStickVertical, LeftStickHorizontal, RightStickVertical, RightStickHorizontal,
    View, Menu, Share
  ]

  /** The index of a control in INPUT_ORDER: every control has one, and it is where the control sits. */
  function Position(c: Control): (i: nat)
    ensures i < |InputOrder| && InputOrder[i] == c
  {
    match c
    case A => 0
    case B => 1
    case X => 2
    case Y => 3
    case DpadUp => 4
    case DpadDown => 5
    case DpadLeft => 6
    case DpadRight => 7
    case LB => 8
    case RB => 9
    case LT => 10
    case RT => 11
    case LeftStickVertical => 12
    case LeftStickHorizontal => 13
    case RightStickVertical => 14
    case RightStickHorizontal => 15
    case View => 16
    case Menu => 17
    case Share => 18
  }

  /** INPUT_ORDER names nineteen controls by nineteen distinct ids. */
  lemma InputOrderDistinct()
    ensures |InputOrder| == 19
    ensures forall i, j :: 0 <= i < j < |InputOrder| ==> Id(InputOrder[i]) != Id(InputOrder[j])
  {
  }

  /** Distinct controls have distinct input ids. */
  lemma IdInjective(c: Control, d: Control)
    ensures Id(c) == Id(d) ==> c == d
  {
  }
}

/** The form the diagram is drawn from and a share code is built from. */
module Form {
  import opened Text
  import opened Controls

  /**
    The form's values: the colour field, the scale field (as its raw text)
    and one label per control, in INPUT_ORDER position.
   */
  datatype State = State(color: String, scale: String, labels: seq<String>)

  predicate Valid(st: State)
  {
    |st.labels| == |InputOrder|
  }

  /** The text in a control's input; "" means the control is not annotated. */
  function Label(st: State, c: Control): String
    requires Valid(st)
  {
    st.labels[Position(c)]
  }
}

=== FILE: layout.dfy ===
/**
  The layout data of the diagram. Positions are in controller units: the
  controller image spans -1 to 1 on both axes, the origin is its centre,
  and y grows downwards. A control's annotation is a highlight on the
  control, a leader arrow from the edge of the controller to the control,
  and the label text at the arrow's tail.
 */
module Layout {
  import opened Wrappers
  import opened Text
  import opened Controls

  datatype Point = Point(x: real, y: real)

  /**
    What marks the control itself: an overlay image centred at `at` and
    drawn at `scale`, or, for a dpad direction, a gradient square at `at`,
    brightest on its (`dx`, `dy`) side and fading away from it.
   */
  datatype Highlight =
    | Overlay(image: String, at: Point, scale: real)
    | Glow(at: Point, dx: int, dy: int)

  /**
    The `textAlign` keyword the label is drawn with. A keyword the canvas
    does not know is kept as written; the canvas ignores it and keeps the
    alignment it had.
   */
  datatype Align = AlignLeft | AlignRight | Unrecognised(keyword: String)

  /**
    The label's width limit: the room between its anchor and the right
    edge of the canvas (`canvas.width - x`), or between the left edge and
    its anchor (`x`).
   */
  datatype Room = ToRightEdge | ToLeftEdge

  datatype Annotation = Annotation(highlight: Highlight, arrow: seq<Point>, textAt: Point, align: Align, room: Room)

  /** The images the page loads; every overlay is one of them. */
  const ImageNames: seq<String> := [
    "A", "arrows_horizontal", "arrows_vertical", "B", "base", "Dpad", "LB", "Left_Stick",
    "LT", "Menu", "RB", "Right_Stick", "RT", "Share", "View", "X", "Y"
  ]

  /** A leader is drawable: a polyline of at least two points whose last segment has a direction. */
  predicate Drawable(arrow: seq<Point>)
  {
    |arrow| >= 2 && arrow[|arrow| - 2] != arrow[|arrow| - 1]
  }

  /** Every segment of the polyline is horizontal or vertical. */
  predicate Rectilinear(arrow: seq<Point>)
  {
    forall i :: 0 < i < |arrow| ==> arrow[i - 1].x == arrow[i].x || arrow[i - 1].y == arrow[i].y
  }

  /** The point lies strictly inside the controller's box. */
  predicate Inside(p: Point)
  {
    -1.0 < p.x < 1.0 && -1.0 < p.y < 1.0
  }

  /**
    The annotation drawn for a control. The leader starts at the left or
    right edge of the controller, leaves it horizontally, runs in
    horizontal and vertical segments, and ends inside the controller. The
    label sits just outside the tail, 1.01 times as far out, and flows
    away from the controller: labels on the right are left-aligned and
    limited by the room to the right edge of the canvas, labels on the
    left are right-aligned and limited by the room to the left edge. The
    share label is the one exception, with the keyword "share" in place
    of "left". (`LeadersRunInward` and `OverlaysLoaded` state the rest of
    the leader's shape and where the overlay images come from.)
   */
  function AnnotationOf(c: Control): (a: Annotation)
    ensures Drawable(a.arrow)
    ensures a.arrow[0].x == 1.0 || a.arrow[0].x == -1.0
    ensures a.textAt == Point(1.01 * a.arrow[0].x, a.arrow[0].y)
    ensures a.arrow[0].x == 1.0 ==> a.room == ToRightEdge && a.align == (if c == Share then Unrecognised("share") else AlignLeft)
    ensures a.arrow[0].x == -1.0 ==> a.room == ToLeftEdge && a.align == AlignRight
  {
    match c
    case A => Annotation(Overlay("A", Point(0.5, 0.05), 0.5),
      [Point(1.0, 0.05), Point(0.6, 0.05)], Point(1.01, 0.05), AlignLeft, ToRightEdge)
    case B => Annotation(Overlay("B", Point(0.635, -0.14), 0.5),
      [Point(1.0, -0.14), Point(0.75, -0.14)], Point(1.01, -0.14), AlignLeft, ToRightEdge)
    case X => Annotation(Overlay("X", Point(0.37, -0.13), 0.5),
      [Point(1.0, -0.5), Point(0.37, -0.5), Point(0.37, -0.25)], Point(1.01, -0.5), AlignLeft, ToRightEdge)
    case Y => Annotation(Overlay("Y", Point(0.505, -0.32), 0.5),
      [Point(1.0, -0.32), Point(0.6, -0.32)], Point(1.01, -0.32), AlignLeft, ToRightEdge)
    case DpadUp => Annotation(Glow(Point(-0.24, 0.15), 0, -1),
      [Point(-1.0, 0.5), Point(-0.4, 0.5), Point(-0.4, 0.15), Point(-0.3, 0.15)], Point(-1.01, 0.5), AlignRight, ToLeftEdge)
    case DpadDown => Annotation(Glow(Point(-0.24, 0.47), 0, 1),
      [Point(-1.0, 0.65), Point(-0.24, 0.65), Point(-0.24, 0.55)], Point(-1.01, 0.65), AlignRight, ToLeftEdge)
    case DpadLeft => Annotation(Glow(Point(-0.33, 0.31), -1, 0),
      [Point(-1.0, 0.8), Point(-0.33, 0.8), Point(-0.33, 0.4)], Point(-1.01, 0.8), AlignRight, ToLeftEdge)
    case DpadRight => Annotation(Glow(Point(-0.15, 0.31), 1, 0),
      [Point(-1.0, 0.95), Point(-0.15, 0.95), Point(-0.15, 0.4)], Point(-1.01, 0.95), AlignRight, ToLeftEdge)
    case LT => Annotation(Overlay("LT", Point(-0.52, -0.88), 0.75),
      [Point(-1.0, -0.88), Point(-0.65, -0.88)], Point(-1.01, -0.88), AlignRight, ToLeftEdge)
    case RT => Annotation(Overlay("RT", Point(0.52, -0.88), 0.75),
      [Point(1.0, -0.88), Point(0.65, -0.88)], Point(1.01, -0.88), AlignLeft, ToRightEdge)
    case LB => Annotation(Overlay("LB", Point(-0.8, -0.7), 0.75),
      [Point(-1.0, -0.7), Point(-0.95, -0.7)], Point(-1.01, -0.7), AlignRight, ToLeftEdge)
    case RB => Annotation(Overlay("RB", Point(0.8, -0.7), 0.75),
      [Point(1.0, -0.7), Point(0.95, -0.7)], Point(1.01, -0.7), AlignLeft, ToRightEdge)
    case LeftStickVertical => Annotation(Overlay("arrows_vertical", Point(-0.482, -0.11), 0.75),
      [Point(-1.0, -0.4), Point(-0.55, -0.4)], Point(-1.01, -0.4), AlignRight, ToLeftEdge)
    case LeftStickHorizontal => Annotation(Overlay("arrows_horizontal", Point(-0.482, -0.11), 0.75),
      [Point(-1.0, -0.11), Point(-0.8, -0.11)], Point(-1.01, -0.11), AlignRight, ToLeftEdge)
    case RightStickVertical => Annotation(Overlay("arrows_vertical", Point(0.2595, 0.31), 0.75),
      [Point(1.0, 0.6), Point(0.35, 0.6)], Point(1.01, 0.6), AlignLeft, ToRightEdge)
    case RightStickHorizontal => Annotation(Overlay("arrows_horizontal", Point(0.2595, 0.31), 0.75),
      [Point(1.0, 0.31), Point(0.55, 0.31)], Point(1.01, 0.31), AlignLeft, ToRightEdge)
    case View => Annotation(Overlay("View", Point(-0.125, -0.125), 0.4),
      [Point(-1.0, -1.0), Point(-0.125, -1.0), Point(-0.125, -0.25)], Point(-1.01, -1.0), AlignRight, ToLeftEdge)
    case Menu => Annotation(Overlay("Menu", Point(0.15, -0.125), 0.4),
      [Point(1.0, -1.0), Point(0.15, -1.0), Point(0.15, -0.25)], Point(1.01, -1.0), AlignLeft, ToRightEdge)
    case Share => Annotation(Overlay("Share", Point(0.01, 0.0), 0.4),
      [Point(1.0, -1.3), Point(0.01, -1.3), Point(0.01, -0.1)], Point(1.01, -1.3), Unrecognised("share"), ToRightEdge)
  }

  /**
    A leader leaves the edge of the controller horizontally and points at
    a spot inside the controller.
   */
  lemma LeadersRunInward(c: Control)
    ensures var arrow := AnnotationOf(c).arrow;
      arrow[1].y == arrow[0].y && Inside(arrow[|arrow| - 1])
  {
  }

  /** Every leader is drawn in horizontal and vertical segments only. */
  lemma LeadersRectilinear(c: Control)
    ensures Rectilinear(AnnotationOf(c).arrow)
  {
  }

  /** Every overlay a control draws is one of the loaded images. */
  lemma OverlaysLoaded(c: Control)
    ensures AnnotationOf(c).highlight.Overlay? ==> AnnotationOf(c).highlight.image in ImageNames
  {
  }

  /** The controls that share one base image: the dpad and the two sticks. */
  datatype Group = Dpad | LeftStick | RightStick

  function Members(g: Group): seq<Control>
  {
    match g
    case Dpad => [DpadUp, DpadDown, DpadLeft, DpadRight]
    case LeftStick => [LeftStickVertical, LeftStickHorizontal]
    case RightStick => [RightStickVertical, RightStickHorizontal]
  }

  /** The group a control belongs to, if any. */
  function GroupOf(c: Control): Option<Group>
  {
    match c
    case DpadUp | DpadDown | DpadLeft | DpadRight => Some(Dpad)
    case LeftStickVertical | LeftStickHorizontal => Some(LeftStick)
    case RightStickVertical | RightStickHorizontal => Some(RightStick)
    case _ => None
  }

  /** The image drawn under a group's annotations. */
  function Base(g: Group): (h: Highlight)
    ensures h.Overlay? && h.image in ImageNames
  {
    match g
    case Dpad => Overlay("Dpad", Point(-0.24, 0.31), 1.05)
    case LeftStick => Overlay("Left_Stick", Point(-0.482, -0.11), 0.75)
    case RightStick => Overlay("Right_Stick", Point(0.2595, 0.31), 0.75)
  }

  /**
    `GroupOf` and `Members` describe the same grouping: `Members` is the
    list a group's `||` condition in `main` tests, and `GroupOf` names the
    shared image a control is drawn over.
   */
  lemma GroupOfMembers(c: Control, g: Group)
    ensures c in Members(g) <==> GroupOf(c) == Some(g)
  {
  }

  /** A stick's axis arrows are drawn over the stick image: same centre, same scale. */
  lemma StickOverlaysOnBase(g: Group, c: Control)
    requires g != Dpad && c in Members(g)
    ensures AnnotationOf(c).highlight.Overlay?
    ensures AnnotationOf(c).highlight.at == Base(g).at
    ensures AnnotationOf(c).highlight.scale == Base(g).scale
  {
    if g == LeftStick {
      assert c == LeftStickVertical || c == LeftStickHorizontal;
    } else {
      assert c == RightStickVertical || c == RightStickHorizontal;
    }
  }

  /**
    A dpad direction glows on the pad, offset from the pad's centre in its
    own direction: 0.09 across and 0.16 down per unit.
   */
  lemma DpadGlowsOnPad(c: Control)
    requires c in Members(Dpad)
    ensures AnnotationOf(c).highlight.Glow?
    ensures var h := AnnotationOf(c).highlight;
      && (h.dx == 0) != (h.dy == 0)
      && -1 <= h.dx <= 1 && -1 <= h.dy <= 1
      && h.at == Point(Base(Dpad).at.x + 0.09 * h.dx as real, Base(Dpad).at.y + 0.16 * h.dy as real)
  {
  }
}

=== FILE: render.dfy ===
/**
  The frame `main` draws, as the sequence of things it puts on the canvas
  in order. A control is annotated only when its label is non-empty (a
  JavaScript string is truthy exactly when it is non-empty), and the image
  a group of controls shares is drawn when any of the group is annotated.
 */
module Render {
  import opened Wrappers
  import opened Text
  import opened Controls
  import opened Form
  import opened Layout
  import opened Codec

  /**
    One step of `main`: draw the controller image, which it always does,
    or one of its `if`s, which annotates a control or draws a group's
    shared image.
   */
  datatype Step = Backdrop | Annotate(control: Control) | BaseOf(group: Group)

  /** The steps of `main` in source order. */
  const DrawOrder: seq<Step> := [
    Backdrop, Annotate(A), Annotate(B), Annotate(X), Annotate(Y),
    BaseOf(Dpad), Annotate(DpadUp), Annotate(DpadDown), Annotate(DpadLeft), Annotate(DpadRight),
    Annotate(LT), Annotate(RT), Annotate(LB), Annotate(RB),
    BaseOf(LeftStick), Annotate(LeftStickVertical), Annotate(LeftStickHorizontal),
    BaseOf(RightStick), Annotate(RightStickVertical), Annotate(RightStickHorizontal),
    Annotate(View), Annotate(Menu), Annotate(Share)
  ]

  /**
    What is drawn: the controller image, a group's shared image, a
    control's highlight, its leader arrow in the ink colour, and its
    caption in the ink colour. The caption carries the label as typed;
    `getLines` wraps it when it is drawn.
   */
  datatype DrawItem =
    | Controller
    | GroupBase(group: Group, image: Highlight)
    | Mark(control: Control, highlight: Highlight)
    | Leader(control: Control, points: seq<Point>, ink: String)
    | Caption(control: Control, text: String, at: Point, align: Align, room: Room, ink: String)

  /** The control's label is truthy, so its `if` in `main` is taken. */
  predicate Labelled(st: State, c: Control)
    requires Valid(st)
  {
    Label(st, c) != []
  }

  /** Some control of the group is labelled. */
  predicate AnyLabelled(st: State, g: Group)
    requires Valid(st)
  {
    exists c :: c in Members(g) && Labelled(st, c)
  }

  /** The items one `if` of `main` draws. */
  function StepItems(st: State, step: Step): seq<DrawItem>
    requires Valid(st)
  {
    match step
    case Backdrop => [Controller]
    case Annotate(c) =>
      if Labelled(st, c) then
        var a := AnnotationOf(c);
        [Mark(c, a.highlight), Leader(c, a.arrow, st.color), Caption(c, Label(st, c), a.textAt, a.align, a.room, st.color)]
      else []
    case BaseOf(g) =>
      if AnyLabelled(st, g) then [GroupBase(g, Base(g))] else []
  }

  function ItemsOf(st: State, steps: seq<Step>): seq<DrawItem>
    requires Valid(st)
  {
    if |steps| == 0 then [] else StepItems(st, steps[0]) + ItemsOf(st, steps[1..])
  }

  /** `main` once the images have loaded: the controller, then every `if` in turn. */
  function DrawItems(st: State): (items: seq<DrawItem>)
    requires Valid(st)
    ensures |items| >= 1 && items[0] == Controller
  {
    ItemsOf(st, DrawOrder)
  }

  /**
    An item other than the controller may be drawn only for a labelled
    control, with that control's layout, label and the form's colour, or
    for a group with a labelled member, with the group's image.
   */
  predicate Justified(st: State, it: DrawItem)
    requires Valid(st)
  {
    match it
    case Controller => true
    case GroupBase(g, image) => AnyLabelled(st, g) && image == Base(g)
    case Mark(c, highlight) => Labelled(st, c) && highlight == AnnotationOf(c).highlight
    case Leader(c, points, ink) => Labelled(st, c) && points == AnnotationOf(c).arrow && ink == st.color
    case Caption(c, text, at, align, room, ink) =>
      var a := AnnotationOf(c);
      && Labelled(st, c) && text == Label(st, c) && ink == st.color
      && at == a.textAt && align == a.align && room == a.room
  }

  /** One `if` of `main` draws something exactly when its condition holds, and only items the form justifies. */
  lemma StepItemsIff(st: State, step: Step)
    requires Valid(st)
    ensures step.Annotate? ==> (StepItems(st, step) != [] <==> Labelled(st, step.control))
    ensures step.BaseOf? ==> (StepItems(st, step) != [] <==> AnyLabelled(st, step.group))
    ensures forall i :: 0 <= i < |StepItems(st, step)| ==> Justified(st, StepItems(st, step)[i])
  {
  }

  lemma {:induction false} ItemsOfSound(st: State, steps: seq<Step>)
    requires Valid(st)
    ensures forall i :: 0 <= i < |ItemsOf(st, steps)| ==> Justified(st, ItemsOf(st, steps)[i])
    decreases |steps|
  {
    if |steps| > 0 {
      ItemsOfSound(st, steps[1..]);
      var head, rest := StepItems(st, steps[0]), ItemsOf(st, steps[1..]);
      forall i | 0 <= i < |head + rest|
        ensures Justified(st, (head + rest)[i])
      {
        if i >= |head| {
          assert (head + rest)[i] == rest[i - |head|];
        }
      }
    }
  }

  /** Soundness: everything drawn is justified by the form. */
  lemma DrawItemsSound(st: State)
    requires Valid(st)
    ensures forall it :: it in DrawItems(st) ==> Justified(st, it)
  {
    ItemsOfSound(st, DrawOrder);
  }

  /** Every leader drawn has at least two points and a direction at its head. */
  lemma LeadersDrawable(st: State)
    requires Valid(st)
    ensures forall it :: it in DrawItems(st) && it.Leader? ==> Drawable(it.points)
  {
    DrawItemsSound(st);
  }

  lemma {:induction false} ItemsOfAppend(st: State, s: seq<Step>, t: seq<Step>)
    requires Valid(st)
    ensures ItemsOf(st, s + t) == ItemsOf(st, s) + ItemsOf(st, t)
    decreases |s|
  {
    if |s| > 0 {
      var head := StepItems(st, s[0]);
      assert (s + t)[0] == s[0] && (s + t)[1..] == s[1..] + t;
      assert ItemsOf(st, s + t) == head + ItemsOf(st, s[1..] + t);
      ItemsOfAppend(st, s[1..], t);
      assert ItemsOf(st, s) == head + ItemsOf(st, s[1..]);
    } else {
      assert s + t == t;
    }
  }

  /** The items of step `k` sit, in a block, between those of the steps before and after it. */
  lemma ItemsAt(st: State, steps: seq<Step>, k: nat)
    requires Valid(st) && k < |steps|
    ensures ItemsOf(st, steps) == ItemsOf(st, steps[..k]) + StepItems(st, steps[k]) + ItemsOf(st, steps[k + 1..])
  {
    var rest := [steps[k]] + steps[k + 1..];
    assert steps == steps[..k] + rest;
    ItemsOfAppend(st, steps[..k], rest);
    assert rest[1..] == steps[k + 1..];
  }

  /** The position of a control's `if` in `main`. */
  function AnnotateStep(c: Control): (k: nat)
    ensures k < |DrawOrder| && DrawOrder[k] == Annotate(c)
  {
    match c
    case A => 1
    case B => 2
    case X => 3
    case Y => 4
    case DpadUp => 6
    case DpadDown => 7
    case DpadLeft => 8
    case DpadRight => 9
    case LT => 10
    case RT => 11
    case LB => 12
    case RB => 13
    case LeftStickVertical => 15
    case LeftStickHorizontal => 16
    case RightStickVertical => 18
    case RightStickHorizontal => 19
    case View => 20
    case Menu => 21
    case Share => 22
  }

  /** The position of the `if` that draws a group's shared image; it precedes its members' `if`s. */
  function BaseStep(g: Group): (k: nat)
    ensures k < |DrawOrder| && DrawOrder[k] == BaseOf(g)
    ensures forall c :: c in Members(g) ==> k < AnnotateStep(c)
  {
    match g
    case Dpad => 5
    case LeftStick => 14
    case RightStick => 17
  }

  /**
    Completeness: a labelled control gets its highlight, its leader and its
    caption, with its own layout, label and the form's colour.
   */
  lemma LabelledIsAnnotated(st: State, c: Control)
    requires Valid(st) && Labelled(st, c)
    ensures var a := AnnotationOf(c);
      && Mark(c, a.highlight) in DrawItems(st)
      && Leader(c, a.arrow, st.color) in DrawItems(st)
      && Caption(c, Label(st, c), a.textAt, a.align, a.room, st.color) in DrawItems(st)
  {
    var k := AnnotateStep(c);
    var a := AnnotationOf(c);
    assert StepItems(st, DrawOrder[k]) == [Mark(c, a.highlight), Leader(c, a.arrow, st.color), Caption(c, Label(st, c), a.textAt, a.align, a.room, st.color)];
    StepIncluded(st, DrawOrder, k);
  }

  /** Whatever a step draws is among the items of the steps. */
  lemma StepIncluded(st: State, steps: seq<Step>, k: nat)
    requires Valid(st) && k < |steps|
    ensures forall it :: it in StepItems(st, steps[k]) ==> it in ItemsOf(st, steps)
  {
    ItemsAt(st, steps, k);
  }

  /** A control's leader is drawn if and only if its label is non-empty; likewise its highlight and its caption. */
  lemma AnnotatedIff(st: State, c: Control)
    requires Valid(st)
    ensures Labelled(st, c) <==> Leader(c, AnnotationOf(c).arrow, st.color) in DrawItems(st)
    ensures Labelled(st, c) <==> Mark(c, AnnotationOf(c).highlight) in DrawItems(st)
    ensures var a := AnnotationOf(c);
      Labelled(st, c) <==> Caption(c, Label(st, c), a.textAt, a.align, a.room, st.color) in DrawItems(st)
  {
    DrawItemsSound(st);
    if Labelled(st, c) {
      LabelledIsAnnotated(st, c);
    }
  }

  /** Nothing at all is drawn for an unlabelled control. */
  lemma UnlabelledDrawsNothing(st: State, c: Control)
    requires Valid(st) && !Labelled(st, c)
    ensures forall it :: it in DrawItems(st) && (it.Mark? || it.Leader? || it.Caption?) ==> it.control != c
  {
    DrawItemsSound(st);
  }

  /** A group's shared image is drawn if and only if one of its controls is labelled. */
  lemma GroupBaseIff(st: State, g: Group)
    requires Valid(st)
    ensures AnyLabelled(st, g) <==> GroupBase(g, Base(g)) in DrawItems(st)
  {
    DrawItemsSound(st);
    if AnyLabelled(st, g) {
      StepIncluded(st, DrawOrder, BaseStep(g));
    }
  }

  /** The items of an earlier step come before those of a later one. */
  lemma StepsInOrder(st: State, steps: seq<Step>, a: nat, b: nat)
    requires Valid(st) && a < b < |steps|
    requires StepItems(st, steps[a]) != [] && StepItems(st, steps[b]) != []
    ensures var i, j := |ItemsOf(st, steps[..a])|, |ItemsOf(st, steps[..b])|;
      && i < j < |ItemsOf(st, steps)|
      && ItemsOf(st, steps)[i] == StepItems(st, steps[a])[0]
      && ItemsOf(st, steps)[j] == StepItems(st, steps[b])[0]
  {
    var before := steps[..b];
    ItemsAt(st, steps, b);
    ItemsAt(st, before, a);
    assert before[..a] == steps[..a];
  }

  /** A group's shared image comes before the highlight of any labelled member drawn after it. */
  lemma BaseBeforeMark(st: State, steps: seq<Step>, g: Group, c: Control, kb: nat, kc: nat)
    requires Valid(st) && c in Members(g) && Labelled(st, c)
    requires kb < kc < |steps| && steps[kb] == BaseOf(g) && steps[kc] == Annotate(c)
    ensures var i, j := |ItemsOf(st, steps[..kb])|, |ItemsOf(st, steps[..kc])|;
      && i < j < |ItemsOf(st, steps)|
      && ItemsOf(st, steps)[i] == GroupBase(g, Base(g))
      && ItemsOf(st, steps)[j] == Mark(c, AnnotationOf(c).highlight)
  {
    assert AnyLabelled(st, g);
    StepsInOrder(st, steps, kb, kc);
  }

  /**
    Layering: a labelled control's highlight is drawn after, so on top of,
    the shared image of its group.
   */
  lemma MarkAboveBase(st: State, g: Group, c: Control)
    requires Valid(st) && GroupOf(c) == Some(g) && Labelled(st, c)
    ensures var items := DrawItems(st);
      exists i, j :: 0 <= i < j < |items| && items[i] == GroupBase(g, Base(g)) && items[j] == Mark(c, AnnotationOf(c).highlight)
  {
    GroupOfMembers(c, g);
    var kb, kc := BaseStep(g), AnnotateStep(c);
    BaseBeforeMark(st, DrawOrder, g, c, kb, kc);
    var i, j := |ItemsOf(st, DrawOrder[..kb])|, |ItemsOf(st, DrawOrder[..kc])|;
    assert DrawItems(st)[i] == GroupBase(g, Base(g)) && DrawItems(st)[j] == Mark(c, AnnotationOf(c).highlight);
  }

  /**
    Loading a shared code draws the same controls: each label comes back
    with its commas turned into U+0001, which neither empties nor fills it,
    and the ink colour comes back unchanged.
   */
  lemma SharedCodeDrawsSameControls(page: Page, st: State, t: Transport, c: Control)
    requires Valid(st) && ',' !in st.color && ',' !in st.scale
    requires Restores(t, BuildRecord(st))
    ensures var r := LoadFromCode(page, UpdateCode(st, t).code, t);
      && r.Success? && Valid(r.value.form)
      && r.value.form.color == st.color
      && Label(r.value.form, c) == Escape(Label(st, c))
      && (Labelled(r.value.form, c) <==> Labelled(st, c))
  {
    ShareRoundTrip(page, st, t);
    EscapedLabel(st, c);
  }
}

=== FILE: text.dfy ===
/**
  Character-sequence operations with the meaning of the JavaScript string
  methods the program uses: `join` and `split` on a one-character separator,
  counting with `matchAll`, `repeat`, `replaceAll` of one character by
  another, and the removal of a trailing run of one character
  (`replaceAll(/,*$/g, "")`).
 */
module Text {

  type String = seq<char>

  /** `xs.join(sep)`: the pieces with one separator between neighbours; "" for no pieces. */
  function Join(xs: seq<String>, sep: char): String
  {
    if |xs| == 0 then []
    else if |xs| == 1 then xs[0]
    else Join(xs[..|xs| - 1], sep) + [sep] + xs[|xs| - 1]
  }

  lemma JoinSnoc(xs: seq<String>, y: String, sep: char)
    requires |xs| > 0
    ensures Join(xs + [y], sep) == Join(xs, sep) + [sep] + y
  {
  }

  lemma {:induction false} JoinCons(x: String, xs: seq<String>, sep: char)
    requires |xs| > 0
    ensures Join([x] + xs, sep) == x + [sep] + Join(xs, sep)
    decreases |xs|
  {
    if |xs| == 1 {
      assert ([x] + xs)[..1] == [x];
    } else {
      var init := xs[..|xs| - 1];
      assert ([x] + xs)[..|xs|] == [x] + init;
      JoinCons(x, init, sep);
    }
  }

  /** `[...s.matchAll(c)].length` for a one-character pattern: the occurrences of `c` in `s`. */
  function Count(s: String, c: char): nat
  {
    if |s| == 0 then 0 else Count(s[..|s| - 1], c) + (if s[|s| - 1] == c then 1 else 0)
  }

  /** There are no more occurrences than characters, and none exactly when `c` does not occur. */
  lemma {:induction false} CountBounds(s: String, c: char)
    ensures Count(s, c) <= |s|
    ensures Count(s, c) == 0 <==> c !in s
    decreases |s|
  {
    if |s| > 0 {
      var init := s[..|s| - 1];
      CountBounds(init, c);
      assert s == init + [s[|s| - 1]];
    }
  }

  /** Occurrences add up over a concatenation. */
  lemma {:induction false} CountAppend(a: String, b: String, c: char)
    ensures Count(a + b, c) == Count(a, c) + Count(b, c)
    decreases |b|
  {
    if |b| > 0 {
      var b' := b[..|b| - 1];
      assert (a + b)[..|a + b| - 1] == a + b';
      CountAppend(a, b', c);
    } else {
      assert a + b == a;
    }
  }

  /** Joining separator-free pieces puts exactly one separator between neighbours and no other. */
  lemma {:induction false} JoinCount(xs: seq<String>, sep: char)
    requires |xs| > 0
    requires forall i :: 0 <= i < |xs| ==> sep !in xs[i]
    ensures Count(Join(xs, sep), sep) == |xs| - 1
    decreases |xs|
  {
    var last := xs[|xs| - 1];
    CountBounds(last, sep);
    if |xs| > 1 {
      var init := xs[..|xs| - 1];
      JoinCount(init, sep);
      CountAppend(Join(init, sep) + [sep], last, sep);
      CountAppend(Join(init, sep), [sep], sep);
    }
  }

  /**
    `s.split(sep)`: the separator-free pieces of `s`, one more than the
    separators in `s` (`JoinSplit` shows they join back to `s`).
   */
  function Split(s: String, sep: char): (pieces: seq<String>)
    ensures |pieces| == Count(s, sep) + 1
    ensures forall i :: 0 <= i < |pieces| ==> sep !in pieces[i]
    decreases |s|
  {
    if |s| == 0 then [[]]
    else
      var init := s[..|s| - 1];
      var c := s[|s| - 1];
      assert s == init + [c];
      var rest := Split(init, sep);
      if c == sep then rest + [[]]
      else rest[..|rest| - 1] + [rest[|rest| - 1] + [c]]
  }

  /** Joining the pieces of a split gives back the text. */
  lemma {:induction false} JoinSplit(s: String, sep: char)
    ensures Join(Split(s, sep), sep) == s
    decreases |s|
  {
    if |s| > 0 {
      var init := s[..|s| - 1];
      var c := s[|s| - 1];
      JoinSplit(init, sep);
      SplitLast(s, sep);
      var rest := Split(init, sep);
      if c == sep {
        JoinSnoc(rest, [], sep);
      } else {
        JoinExtendPiece(rest, c, sep);
      }
    }
  }

  /** One step of `Split`: the last character either opens a new piece or extends the last one. */
  lemma SplitLast(s: String, sep: char)
    requires |s| > 0
    ensures s == s[..|s| - 1] + [s[|s| - 1]]
    ensures var rest := Split(s[..|s| - 1], sep);
      Split(s, sep) == if s[|s| - 1] == sep then rest + [[]] else rest[..|rest| - 1] + [rest[|rest| - 1] + [s[|s| - 1]]]
  {
    var init, c := s[..|s| - 1], s[|s| - 1];
    assert s == init + [c];
    var rest := Split(init, sep);
    assert Split(s, sep) == if c == sep then rest + [[]] else rest[..|rest| - 1] + [rest[|rest| - 1] + [c]];
  }

  /** Extending the last piece by a character extends the joined text by it. */
  lemma JoinExtendPiece(xs: seq<String>, c: char, sep: char)
    requires |xs| > 0
    ensures Join(xs[..|xs| - 1] + [xs[|xs| - 1] + [c]], sep) == Join(xs, sep) + [c]
  {
  }

  lemma {:induction false} SplitPlain(s: String, sep: char)
    requires sep !in s
    ensures Split(s, sep) == [s]
    decreases |s|
  {
    if |s| > 0 {
      assert s == s[..|s| - 1] + [s[|s| - 1]];
      SplitPlain(s[..|s| - 1], sep);
    }
  }

  /** A separator followed by a separator-free tail adds exactly that tail as one more piece. */
  lemma {:induction false} SplitAfterSep(a: String, b: String, sep: char)
    requires sep !in b
    ensures Split(a + [sep] + b, sep) == Split(a, sep) + [b]
    decreases |b|
  {
    var s := a + [sep] + b;
    if |b| == 0 {
      assert s[..|s| - 1] == a;
    } else {
      var b' := b[..|b| - 1];
      assert s[..|s| - 1] == a + [sep] + b';
      assert b == b' + [b[|b| - 1]];
      SplitAfterSep(a, b', sep);
    }
  }

  /** Splitting undoes joining: separator-free pieces come back exactly. */
  lemma {:induction false} SplitJoin(xs: seq<String>, sep: char)
    requires |xs| > 0
    requires forall i :: 0 <= i < |xs| ==> sep !in xs[i]
    ensures Split(Join(xs, sep), sep) == xs
    decreases |xs|
  {
    if |xs| == 1 {
      SplitPlain(xs[0], sep);
    } else {
      var init := xs[..|xs| - 1];
      SplitJoin(init, sep);
      SplitAfterSep(Join(init, sep), xs[|xs| - 1], sep);
      assert xs == init + [xs[|xs| - 1]];
    }
  }

  /** `c.repeat(n)` for a non-negative count. */
  function Repeat(c: char, n: nat): (r: String)
    ensures |r| == n
    ensures forall i :: 0 <= i < n ==> r[i] == c
    ensures Count(r, c) == n
  {
    if n == 0 then [] else
      var r := Repeat(c, n - 1) + [c];
      assert r[..n - 1] == Repeat(c, n - 1);
      r
  }

  /** `s.replaceAll(from, to)` for single characters. */
  function ReplaceAll(s: String, from: char, to: char): (r: String)
    ensures |r| == |s|
    ensures forall i :: 0 <= i < |s| ==> r[i] == (if s[i] == from then to else s[i])
    ensures from != to ==> from !in r
    ensures from !in s ==> r == s
  {
    if |s| == 0 then [] else [if s[0] == from then to else s[0]] + ReplaceAll(s[1..], from, to)
  }

  /** `s.replaceAll(/c*$/g, "")`: `s` without its trailing run of `c`. */
  function TrimEnd(s: String, c: char): (r: String)
    ensures r <= s
    ensures |r| == 0 || r[|r| - 1] != c
    ensures forall i :: |r| <= i < |s| ==> s[i] == c
  {
    if |s| > 0 && s[|s| - 1] == c then TrimEnd(s[..|s| - 1], c) else s
  }

  /** What `TrimEnd` removed is a run of `c` that appending restores. */
  lemma TrimEndRestore(s: String, c: char)
    ensures s == TrimEnd(s, c) + Repeat(c, |s| - |TrimEnd(s, c)|)
  {
  }
}

=== FILE: wrap.dfy ===
/**
  `getLines`: the greedy line breaker behind every label. The canvas's
  `measureText` is a parameter, `measure`, giving the width of a string.
 */
module Wrap {
  import opened Text

  /** The first word of a line, `line.split(" ")[0]`. */
  function FirstWord(line: String): String
  {
    Split(line, ' ')[0]
  }

  /** Every line holding a space, that is more than one word, is narrower than `maxWidth`. */
  predicate MultiWordLinesFit(measure: String -> real, maxWidth: real, lines: seq<String>)
  {
    forall i :: 0 <= i < |lines| && ' ' in lines[i] ==> measure(lines[i]) < maxWidth
  }

  /** Each line widened by the first word of the next is not narrower than `maxWidth`. */
  predicate BreaksForced(measure: String -> real, maxWidth: real, lines: seq<String>)
  {
    forall i :: 0 <= i < |lines| - 1 ==> measure(lines[i] + " " + FirstWord(lines[i + 1])) >= maxWidth
  }

  /** Adding a word after a space leaves the first word of a line unchanged. */
  lemma FirstWordExtend(line: String, word: String)
    requires ' ' !in word
    ensures FirstWord(line + " " + word) == FirstWord(line)
  {
    SplitAfterSep(line, word, ' ');
  }

  lemma JoinExtendLast(lines: seq<String>, current: String, word: String)
    ensures Join(lines + [current + " " + word], ' ') == Join(lines + [current], ' ') + " " + word
  {
  }

  /**
    `getLines`: splits `text` at spaces and packs the words greedily. A
    word joins the current line while the widened line measures less than
    `maxWidth`, and otherwise starts a new line. There is always at least
    one line, and the lines joined by single spaces give back the text. A
    line of several words is narrower than `maxWidth`; only a line holding
    a single word may be wider. A break is forced: each line widened by the
    next line's first word would not be narrower than `maxWidth`.
   */
  function GetLines(measure: String -> real, text: String, maxWidth: real): (lines: seq<String>)
    ensures |lines| >= 1
    ensures Join(lines, ' ') == text
    ensures MultiWordLinesFit(measure, maxWidth, lines)
    ensures BreaksForced(measure, maxWidth, lines)
  {
    var words := Split(text, ' ');
    JoinSplit(text, ' ');
    assert words[..1] == [words[0]] == [] + [words[0]];
    assert words == words[..1] + words[1..];
    PackRestPacked(measure, maxWidth, words[..1], [], words[0], words[1..]);
    var packed := PackRest(measure, maxWidth, [], words[0], words[1..]);
    ExtendLines(measure, maxWidth, packed.0, packed.1);
    packed.0 + [packed.1]
  }

  /**
    The loop of `getLines` over the words still to place, from finished
    `lines` and the open line `current`.
   */
  function PackRest(measure: String -> real, maxWidth: real, lines: seq<String>, current: String, rest: seq<String>): (seq<String>, String)
    decreases |rest|
  {
    if |rest| == 0 then (lines, current)
    else
      var next := Place(measure, maxWidth, lines, current, rest[0]);
      PackRest(measure, maxWidth, next.0, next.1, rest[1..])
  }

  /** Running the loop over space-free words keeps the state packed. */
  lemma {:induction false} PackRestPacked(measure: String -> real, maxWidth: real, words: seq<String>, lines: seq<String>, current: String, rest: seq<String>)
    requires Packed(measure, maxWidth, words, lines, current)
    requires forall i :: 0 <= i < |rest| ==> ' ' !in rest[i]
    ensures var packed := PackRest(measure, maxWidth, lines, current, rest);
      Packed(measure, maxWidth, words + rest, packed.0, packed.1)
    decreases |rest|
  {
    if |rest| == 0 {
      assert words + rest == words;
    } else {
      PackStep(measure, maxWidth, words, lines, current, rest[0]);
      var next := Place(measure, maxWidth, lines, current, rest[0]);
      PackRestPacked(measure, maxWidth, words + [rest[0]], next.0, next.1, rest[1..]);
      assert words + [rest[0]] + rest[1..] == words + rest;
    }
  }

  /**
    The loop state of `getLines` after the given words: finished `lines`
    and the `current` line, which together join to the words so far, keep
    the width bound, and were broken only where a break was forced.
   */
  predicate Packed(measure: String -> real, maxWidth: real, words: seq<String>, lines: seq<String>, current: String)
  {
    && |words| > 0
    && Join(lines + [current], ' ') == Join(words, ' ')
    && MultiWordLinesFit(measure, maxWidth, lines)
    && (' ' in current ==> measure(current) < maxWidth)
    && BreaksForced(measure, maxWidth, lines)
    && (|lines| > 0 ==> measure(lines[|lines| - 1] + " " + FirstWord(current)) >= maxWidth)
  }

  /**
    One iteration of the loop of `getLines`: the word widens the current
    line if the widened line measures less than `maxWidth`, and otherwise
    the current line is finished and the word opens the next one.
   */
  function Place(measure: String -> real, maxWidth: real, lines: seq<String>, current: String, word: String): (seq<String>, String)
  {
    if measure(current + " " + word) < maxWidth then (lines, current + " " + word)
    else (lines + [current], word)
  }

  /** One iteration keeps the loop state packed. */
  lemma PackStep(measure: String -> real, maxWidth: real, words: seq<String>, lines: seq<String>, current: String, word: String)
    requires Packed(measure, maxWidth, words, lines, current)
    requires ' ' !in word
    ensures var (lines', current') := Place(measure, maxWidth, lines, current, word);
      Packed(measure, maxWidth, words + [word], lines', current')
  {
    JoinSnoc(words, word, ' ');
    if measure(current + " " + word) < maxWidth {
      JoinExtendLast(lines, current, word);
      FirstWordExtend(current, word);
    } else {
      JoinSnoc(lines + [current], word, ' ');
      SplitPlain(word, ' ');
      ExtendLines(measure, maxWidth, lines, current);
    }
  }

  /** Appending a line keeps the width bound and the forced breaks of the lines so far. */
  lemma ExtendLines(measure: String -> real, maxWidth: real, lines: seq<String>, current: String)
    requires MultiWordLinesFit(measure, maxWidth, lines)
    requires ' ' in current ==> measure(current) < maxWidth
    requires BreaksForced(measure, maxWidth, lines)
    requires |lines| > 0 ==> measure(lines[|lines| - 1] + " " + FirstWord(current)) >= maxWidth
    ensures MultiWordLinesFit(measure, maxWidth, lines + [current])
    ensures BreaksForced(measure, maxWidth, lines + [current])
  {
  }
}

=== FILE: wrappers.dfy ===
/** Failure-carrying datatypes used by the share-code decoder. */
module Wrappers {

  /** A value that may be absent: `None` where the source's library call throws. */
  datatype Option<+T> = None | Some(value: T)

  /** A value, or the error the source lets escape to its caller. */
  datatype Result<+T, +E> = Success(value: T) | Failure(error: E)
}
